=== FILE: README.md ===
# Uber trip dashboard: derived-state model

A Dafny model of the client-side logic of the trip-analysis dashboard
(`frontend/src/App.js`). The dashboard loads a list of ride records from the
`/trips` endpoint. It filters them by vehicle type, fare range, rating,
payment method and a case-insensitive pickup/dropoff search. It shows the
result ten rows per page and draws a bar chart of the fares on the visible
page.

The model is functional. Trips, criteria and the controller state are
immutable datatypes. Each user action is a pure transition `State -> State`.
React re-runs `applyFilters` whenever the trip list or a criterion changes;
the model folds that re-run into each transition that changes one of them.

Files, one module each:

- `text.dfy` (`Text`): ASCII `toLowerCase`, `String.prototype.includes`, and
  `parseInt` with no radix. `parseInt` skips leading white space, reads an
  optional sign, handles a `0x` prefix, reads the longest digit run, and
  gives NaN when there are no digits.
- `trips.dfy` (`Trips`): the `Trip` record, `Criteria`, the five-way match,
  `Filter`, and `RunFilter`, which also says when the search test throws.
- `pagination.dfy` (`Pagination`): `Array.prototype.slice` with its
  negative-index rules, the page window, and `Math.ceil(count / 10)`.
- `chart.dfy` (`Chart`): the chart projection of the visible page.
- `fare_cap.dfy` (`FareCap`): `Math.ceil(Math.max(...fares))`, including the
  empty list, where `Math.max()` is minus infinity.
- `dashboard.dfy` (`Dashboard`): the controller state, the load, criteria
  setters, reset, page buttons, the crash, and the reachable-state invariant.

Four behaviours of App.js the model keeps on purpose:

- The search text is lower-cased as well as the pickup and dropoff points.
- A load failure leaves the loaded list as it was. It does not empty it.
  The list is empty anyway, because a load can only be started before the
  first successful load.
- Setting a criterion to the value it already holds does not reset the
  page. React sees no dependency change, so the effect does not run.
- The pickup and dropoff points can be `null`. The loader turns empty CSV
  cells into `None` (backend/load_csv.py:30) and drops only rows without a
  fare or a rating. A non-empty search then calls `toLowerCase` on `null`,
  and the effect throws. With no error boundary, React unmounts the whole
  dashboard, so the model has a `crashed` state that shows nothing and
  offers no control.

## Model

| member | source | states |
|---|---|---|
| `Trips.Filter` | frontend/src/App.js:67-81 | every kept trip comes from the loaded list and matches all five conditions; every matching loaded trip is kept; the result is never longer |
| `Trips.FilterIsSubsequence` | frontend/src/App.js:68-78 | the filtered list is a subsequence of the loaded list: nothing fabricated, relative order kept |
| `Trips.FilterCounts` | frontend/src/App.js:68-78 | a matching trip occurs in the result exactly as often as in the loaded list, a non-matching one never |
| `Trips.FilterIdempotent` | frontend/src/App.js:68-78 | filtering the filtered list again with the same criteria returns it unchanged |
| `Trips.FilterAppend` | frontend/src/App.js:68 | the filter is a per-element scan: filtering a concatenation is concatenating the filtered parts |
| `Trips.FilterKeepsMatching` | frontend/src/App.js:68-78 | a list all of whose trips match passes through unchanged |
| `Trips.FilterDropsNonMatching` | frontend/src/App.js:68-78 | a list none of whose trips match filters to the empty list |
| `Trips.RunFilter` | frontend/src/App.js:68-78 | the filter throws exactly when some trip's search test throws: a non-empty search meets a `null` pickup point, or a `null` dropoff point after a pickup point without the text; otherwise it returns the filtered list |
| `Trips.ThrowsDependsOnSearchOnly` | frontend/src/App.js:74-76 | two criteria with the same search text both throw or both do not |
| `Trips.NeverThrowsWithoutNull` | frontend/src/App.js:74-76 | with an empty search, or with every pickup and dropoff point present, the filter returns the filtered list |
| `Trips.NullPickupThrows` | frontend/src/App.js:74-75 | a non-empty search over a list with a trip whose pickup point is `null` throws |
| `Trips.SearchMeaning` | frontend/src/App.js:74-76 | the search condition holds iff the search is empty or the lower-cased search occurs at some position of a present lower-cased pickup or dropoff point |
| `Trips.SearchIgnoresCase` | frontend/src/App.js:74-76 | lower-casing the search text first changes no search outcome |
| `Trips.RatingOptionSelects` | frontend/src/App.js:72 | with the rating option whose value is the decimal text of `r`, the rating condition holds exactly for trips rated `r` |
| `Text.Lower` | frontend/src/App.js:75-76 | lower-casing keeps the length and maps each character through the ASCII lower-case map |
| `Text.LowerIdempotent` | frontend/src/App.js:75-76 | lower-casing twice is lower-casing once |
| `Text.IncludesIsSubstring` | frontend/src/App.js:75-76 | the scanning `includes` returns true iff the needle occurs at some position of the text |
| `Text.EmptyIsEverywhere` | frontend/src/App.js:74-76 | the empty search text is found in every string, so the `search === ''` test never changes the outcome |
| `Text.TrimStart` | frontend/src/App.js:72 | `parseInt`'s leading-space skip removes exactly a prefix of white-space characters and stops at the first other character |
| `Text.DigitRun` | frontend/src/App.js:72 | `parseInt` reads the longest prefix of digits: all of them digits, and the next character (if any) not one |
| `Text.ParseDigitString` | frontend/src/App.js:72 | `parseInt` of a non-empty string of decimal digits skips no space, sees no sign or `0x` prefix, and reads the string in base 10 |
| `Text.ParseAllDigits` | frontend/src/App.js:72 | when every character is a digit, `parseInt`'s digit reader returns the positional value of the whole string |
| `Text.ParseDecimalString` | frontend/src/App.js:72 | `parseInt` of the decimal text of a natural number gives back that number |
| `Pagination.Slice` | frontend/src/App.js:99 | `slice` with non-negative bounds is the window clamped to the list; with negative bounds it counts back from the end; an end of 0 gives the empty list; never longer than the list |
| `Pagination.PageZeroIsEmpty` | frontend/src/App.js:97-99 | page 0, the window from -10 to 0, is empty even for a non-empty list, which is why the dashboard keeps its page at 1 or above |
| `Pagination.TotalPages` | frontend/src/App.js:100 | the page count is the least `n` with `count <= 10 * n`, i.e. `ceil(count / 10)` |
| `Pagination.PageShape` | frontend/src/App.js:97-99 | page `p >= 1` is the window `[(p-1)*10, p*10)` cut to the list, holds at most 10 rows, is full before the last page, and is empty exactly when `p` exceeds the page count |
| `Pagination.EmptyListHasNoPages` | frontend/src/App.js:97-100 | the empty list has 0 pages and an empty page 1 |
| `Pagination.PageLocatesRow` | frontend/src/App.js:97-100 | row `i` of the list is on page `i / 10 + 1`, an existing page, at position `i % 10` |
| `Pagination.PagesReconstruct` | frontend/src/App.js:97-100 | pages 1 to the page count, concatenated in order, give back the list exactly |
| `Chart.Dates` | frontend/src/App.js:103 | the label list has one entry per row, the row's date |
| `Chart.FareChartData` | frontend/src/App.js:102-109 | one series labelled "Fare (INR)"; labels and values have the page's length, with label `i` the date and value `i` the fare of row `i` |
| `Chart.ChartShowsPage` | frontend/src/App.js:97-109 | bar `i` of page `p` shows the date and fare of row `(p-1)*10 + i` of the filtered list |
| `Trips.Fares` | frontend/src/App.js:52 | the fare list has one entry per trip, that trip's fare |
| `FareCap.MaxOf` | frontend/src/App.js:53 | the maximum is one of the fares and no fare exceeds it |
| `FareCap.Ceil` | frontend/src/App.js:53 | `Math.ceil` gives the least integer not below its argument |
| `FareCap.FareCeiling` | frontend/src/App.js:52-53 | the ceiling is minus infinity exactly for an empty load; otherwise it is an integer, no fare exceeds it, and some fare is within 1 of it |
| `FareCap.DefaultsKeepEverything` | frontend/src/App.js:52-57 | with the default criteria for the list's own ceiling, every trip with a non-negative fare passes the filter |
| `Dashboard.ApplyFilters` | frontend/src/App.js:67-81 | the dashboard crashes exactly when the filter throws; otherwise the filtered list becomes the filter of the loaded list and the page becomes 1; nothing else changes |
| `Dashboard.Initial` | frontend/src/App.js:18-33 | the first render has nothing loaded, an empty filtered list, default criteria for the initial ceiling, page 1, and no crash |
| `Dashboard.Edit` | frontend/src/App.js:93-95 | a criteria change crashes exactly when the filter throws under the new criteria, and otherwise refilters the loaded list and returns to page 1; an unchanged value leaves the state alone; the loaded list, ceiling and status never change |
| `Dashboard.Reset` | frontend/src/App.js:83-91 | criteria become the defaults for the current ceiling and the page 1; loaded list, ceiling, status and crash flag are untouched; the filtered list becomes the filter under the defaults |
| `Dashboard.Load` | frontend/src/App.js:52-64 | on success the loaded list is the response, the ceiling is the response's fare ceiling and seeds the upper bound, and the list is refiltered onto page 1 unless the filter throws, which crashes; on failure only the status changes |
| `Dashboard.InitialConsistent` | frontend/src/App.js:18-33 | the first render satisfies the dashboard invariant |
| `Dashboard.Step` | frontend/src/App.js:116-239 | an action on a control that is not rendered leaves the state unchanged, so a crashed dashboard ignores every action; once loaded, the loaded list and the ceiling never change; only a successful load from the unloaded state changes either, and it marks the dashboard loaded |
| `Dashboard.LoadConsistent` | frontend/src/App.js:52-64 | the first load, successful or failed, keeps the invariant; the default search is empty, so its refilter cannot throw |
| `Dashboard.EditConsistent` | frontend/src/App.js:67-81 | a criteria setter keeps the invariant whether it refilters onto page 1 or crashes with the old list and page |
| `Dashboard.ResetConsistent` | frontend/src/App.js:83-91 | reset keeps the invariant; a live dashboard stays live on the defaults' filter |
| `Dashboard.PageClickConsistent` | frontend/src/App.js:221-225 | choosing one of the offered page buttons keeps the invariant |
| `Dashboard.StepConsistent` | frontend/src/App.js:67-100 | every user action preserves the invariant: unless crashed, the filter runs without throwing and the filtered list is its result; the page is 1 or an existing page; the ceiling belongs to the loaded list; nothing crashes before a load |
| `Dashboard.RunConsistent` | frontend/src/App.js:67-100 | any sequence of actions from a consistent state ends in a consistent state |
| `Dashboard.ReachableConsistent` | frontend/src/App.js:67-100 | every state reachable from the first render is consistent |
| `Dashboard.CriterionChangeResetsPage` | frontend/src/App.js:67-81 | changing any criterion crashes exactly when the filter throws under the new criteria, and otherwise puts the view on page 1 of the list refiltered under them, leaving the loaded list and ceiling alone |
| `Dashboard.CrashNeedsNullPlace` | frontend/src/App.js:74-76 | a live dashboard crashes only on a non-empty search over a loaded list that has a trip without a pickup or a dropoff point |
| `Dashboard.NullPickupSearchCrashes` | frontend/src/App.js:74-75 | a non-empty search while some loaded trip has no pickup point crashes: no rows are shown and no control is left |
| `Dashboard.ControlsOnScreen` | frontend/src/App.js:116-133 | a consistent dashboard offers no control after a crash, only the load button before a load, and after a load every filter, the reset button and one page button per page, but no load button |
| `Dashboard.PageClickShowsPage` | frontend/src/App.js:221-225 | page button `i` moves to page `i + 1` and changes nothing else; the table then shows rows `10 * i` up to `10 * (i + 1)` of the filtered list, cut to its length, and is not empty |
| `Dashboard.VisiblePageNotStale` | frontend/src/App.js:97-99 | in a reachable state the table shows at most 10 rows, and, unless crashed, at least one whenever the filtered list is non-empty |
| `Dashboard.VisibleChartShowsTable` | frontend/src/App.js:97-109 | the chart has one bar per table row, at most 10, and bar `i` shows the date and fare of row `i` |
| `Dashboard.VisibleRowsMatch` | frontend/src/App.js:67-99 | every row on screen is a loaded trip matching the current criteria |
| `Dashboard.LoadShowsEverything` | frontend/src/App.js:52-57 | a first successful load of trips with non-negative fares shows every loaded trip, from page 1 |
| `Dashboard.FailedLoadKeepsState` | frontend/src/App.js:61-64 | a failed load only sets the failure status: nothing is loaded, no rows are shown, and the load button is still offered |
| `Dashboard.ResetShowsEverything` | frontend/src/App.js:83-91 | unless crashed, a reset shows every loaded trip with a non-negative fare again, from page 1 |
| `Dashboard.UnknownVehicleEmpties` | frontend/src/App.js:70 | choosing a vehicle type no loaded trip has leaves no rows, no page buttons, page 1, and no crash |
| `Dashboard.MaxFareBelowAllEmpties` | frontend/src/App.js:71 | an upper fare bound below every loaded fare leaves no rows and does not crash |

## Left out

- The `api.get('/trips')` request and its exception path (frontend/src/App.js:51, 61). They become the `Response` parameter of `Load`: a list, or a failure.
- The 700 ms status-step animation, `stepIndex` and the `loading` flag (frontend/src/App.js:43-50). These are timers and cosmetic state.
- The load button's `disabled` while loading, and overlapping clicks during a load. Each load is one transition.
- `Dashboard.Load`: a response is always stored. `Math.max(...fares)` passes every fare as a call argument, and JavaScript engines cap the argument count (a fixed limit in some engines, the stack size in others). A response beyond that cap throws a `RangeError`, which the `catch` block handles like a transport failure. The cap depends on the engine, so the model has no size bound; such a response is represented only as `LoadError`.
- JSX rendering, the show/hide-filters toggle, framer-motion and chart.js. Only the data handed to the chart is modelled.
- React scheduling. The model assumes the setters of one handler are batched and followed by one run of the effect.
- `parseFloat` of `fare_inr`. Fares are exact `real`s, and the chart shows the same value the filter compares.
- IEEE doubles. Bounds and fares are exact. NaN from a malformed number input is not modelled. Neither is `Object.is` telling `0` from `-0`, or rounding in `parseInt` of very long digit strings.
- `null` in the other fields of a trip. A `null` vehicle type, payment method or date never throws in the filter; the model gives these fields string values, so a `null` there is not represented.
- Recovering from a crash. The blank page after an uncaught error is final in the model; only a page reload, which is outside the model, brings the dashboard back.
- Unicode case mapping. `toLowerCase` is modelled on ASCII letters only.
- `Text.ParseDecimalString`: proves the round trip for decimal text without a sign or leading spaces, which is all the rating drop-down produces; other inputs to `parseInt` are modelled but no round trip is claimed for them.
- backend/load_csv.py, backend/app/routes.py, backend/app/main.py, backend/test_db.py, backend/app/utils.py, backend/app/models.py. These are CSV and database I/O, web-framework setup and a schema, with no client-side logic. backend/app/database.py is not part of this model.

=== FILE: chart.dfy ===
/** The bar chart's input (`fareChartData` in frontend/src/App.js): one label
    and one value per row of the visible page. */
module Chart {
  import opened Trips
  import opened Pagination

  datatype Dataset = Dataset(seriesLabel: string, data: seq<real>, backgroundColor: string)

  datatype ChartData = ChartData(labels: seq<string>, datasets: seq<Dataset>)

  /** The dates of a list of trips, position by position. */
  function Dates(ts: seq<Trip>): (r: seq<string>)
    ensures |r| == |ts|
    ensures forall i :: 0 <= i < |ts| ==> r[i] == ts[i].date
  {
    if ts == [] then [] else [ts[0].date] + Dates(ts[1..])
  }

  /** The chart for the visible page: labelled by date, one series of fares,
      nothing aggregated. */
  function FareChartData(current: seq<Trip>): (r: ChartData)
    ensures |r.datasets| == 1
    ensures r.datasets[0].seriesLabel == "Fare (INR)"
    ensures |r.labels| == |current| == |r.datasets[0].data|
    ensures forall i :: 0 <= i < |current| ==>
      r.labels[i] == current[i].date && r.datasets[0].data[i] == current[i].fare
  {
    ChartData(Dates(current), [Dataset("Fare (INR)", Fares(current), "#4ade80")])
  }

  /** Bar `i` of the chart for page `p` is row `(p-1)*10 + i` of the filtered
      list: the chart shows exactly the visible page, in table order. */
  lemma ChartShowsPage(trips: seq<Trip>, p: int, i: int)
    requires p >= 1
    requires 0 <= i < |CurrentPage(trips, p)|
    ensures (p - 1) * PageSize + i < |trips|
    ensures FareChartData(CurrentPage(trips, p)).labels[i] == trips[(p - 1) * PageSize + i].date
    ensures FareChartData(CurrentPage(trips, p)).datasets[0].data[i] == trips[(p - 1) * PageSize + i].fare
  {
    PageShape(trips, p);
  }
}

=== FILE: dashboard.dfy ===
/** The dashboard controller of frontend/src/App.js as a state record and pure
    transitions. React's re-run of `applyFilters` (the effect that depends on
    the trip list and every criterion) is folded into each transition that
    changes one of those dependencies. */
module Dashboard {
  import opened Trips
  import opened Pagination
  import opened Chart
  import opened FareCap

  datatype Status = Idle | Loaded | Failed

  function StatusMessage(st: Status): string
  {
    match st
    case Idle => "Click \"Verify Backend\" to begin."
    case Loaded => "\U{1F389} Successfully connected and loaded!"
    case Failed => "\U{274C} Failed to connect to backend."
  }

  /** What the `/trips` request resolves to: the list, or any transport or
      parsing failure. */
  datatype Response = Received(data: seq<Trip>) | LoadError

  /** The controller's state: the loaded list, the filtered list, the
      criteria, the fare ceiling, the 1-indexed page and the load status.
      `crashed` records that the effect threw: React then unmounts the whole
      component, so nothing is shown and no control is left. */
  datatype State = State(
    allTrips: seq<Trip>,
    trips: seq<Trip>,
    criteria: Criteria,
    fareCap: Ceiling,
    page: int,
    status: Status,
    dataLoaded: bool,
    crashed: bool)

  /** The fare ceiling before anything is loaded. */
  const InitialCap: Ceiling := AtMost(10000.0)

  /** The user's inputs. `ClickPage(i)` is the button labelled `i + 1`. */
  datatype Action =
    | ClickLoad(response: Response)
    | SetSearch(text: string)
    | SetVehicle(vehicle: string)
    | SetPayment(payment: string)
    | SetRating(rating: string)
    | SetMinFare(minFare: real)
    | SetMaxFare(maxFare: real)
    | ClickPage(index: nat)
    | ClickReset

  /** `applyFilters`: store the filtered list and go back to page 1, or, when
      the search test throws, leave both as they were and crash. */
  function ApplyFilters(s: State): (r: State)
    ensures r.crashed <==> s.crashed || RunFilter(s.allTrips, s.criteria).Threw?
    ensures RunFilter(s.allTrips, s.criteria).Kept? ==>
      r.trips == Filter(s.allTrips, s.criteria) && r.page == 1
    ensures r.(trips := s.trips, page := s.page, crashed := s.crashed) == s
  {
    match RunFilter(s.allTrips, s.criteria)
    case Threw => s.(crashed := true)
    case Kept(ts) => s.(trips := ts, page := 1)
  }

  /** The state on first render: the initial `useState` values, after the
      mount-time run of the effect. */
  function Initial(): (r: State)
    ensures r.allTrips == [] && r.trips == [] && !r.dataLoaded && !r.crashed
    ensures r.criteria == Defaults(r.fareCap) && r.page == 1
  {
    ApplyFilters(State([], [], Defaults(InitialCap), InitialCap, 1, Idle, false, false))
  }

  /** A criteria setter. Setting a criterion to the value it already has
      changes no dependency of the effect, so nothing is recomputed and the
      page stays; any real change reruns `applyFilters`. */
  function Edit(s: State, c: Criteria): (r: State)
    ensures r.criteria == c
    ensures r.allTrips == s.allTrips && r.fareCap == s.fareCap
    ensures r.status == s.status && r.dataLoaded == s.dataLoaded
    ensures c == s.criteria ==> r == s
    ensures c != s.criteria ==> (r.crashed <==> s.crashed || RunFilter(s.allTrips, c).Threw?)
    ensures c != s.criteria && RunFilter(s.allTrips, c).Kept? ==>
      r.page == 1 && r.trips == Filter(s.allTrips, c)
    ensures c != s.criteria && RunFilter(s.allTrips, c).Threw? ==>
      r.page == s.page && r.trips == s.trips
  {
    if c == s.criteria then s else ApplyFilters(s.(criteria := c))
  }

  /** `resetFilters`: default criteria for the current ceiling and page 1; the
      effect refilters when that changed any criterion. The default search is
      empty, so this never throws. */
  function Reset(s: State): (r: State)
    ensures r.criteria == Defaults(s.fareCap) && r.page == 1
    ensures r.allTrips == s.allTrips && r.fareCap == s.fareCap
    ensures r.status == s.status && r.dataLoaded == s.dataLoaded && r.crashed == s.crashed
    ensures s.trips == Filter(s.allTrips, s.criteria) ==>
      r.trips == Filter(s.allTrips, Defaults(s.fareCap))
  {
    var d := Defaults(s.fareCap);
    NeverThrowsWithoutNull(s.allTrips, d);
    if d == s.criteria then s.(page := 1) else ApplyFilters(s.(criteria := d))
  }

  /** The end of `simulateBackend`. On success the list is stored, the
      ceiling is the maximum fare rounded up and seeds the upper bound, and
      the effect reruns `applyFilters` (a fresh response array always changes
      the effect's dependencies). On failure only the status changes. */
  function Load(s: State, response: Response): (r: State)
    ensures response.Received? ==>
      && r.allTrips == response.data
      && r.fareCap == FareCeiling(response.data)
      && r.criteria == s.criteria.(maxFare := r.fareCap)
      && r.status == Loaded && r.dataLoaded
      && (r.crashed <==> s.crashed || RunFilter(response.data, r.criteria).Threw?)
    ensures response.Received? && RunFilter(response.data, r.criteria).Kept? ==>
      r.trips == Filter(response.data, r.criteria) && r.page == 1
    ensures response.LoadError? ==> r == s.(status := Failed)
  {
    match response
    case Received(data) =>
      var cap := FareCeiling(data);
      ApplyFilters(s.(allTrips := data, trips := data, fareCap := cap,
                      criteria := s.criteria.(maxFare := cap),
                      status := Loaded, dataLoaded := true))
    case LoadError => s.(status := Failed)
  }

  /** Which controls are on screen: nothing after a crash; otherwise the load
      button before a successful load, and the filters, page buttons and reset
      button after it. A control that is not rendered cannot be used. */
  predicate Enabled(s: State, a: Action)
  {
    !s.crashed &&
    match a
    case ClickLoad(_) => !s.dataLoaded
    case ClickPage(i) => s.dataLoaded && i < TotalPages(|s.trips|)
    case _ => s.dataLoaded
  }

  /** One user action; an action on a control that is not rendered does
      nothing. Only the first successful load sets the loaded list, the
      ceiling and the loaded flag, and a crashed dashboard stays as it is. */
  function Step(s: State, a: Action): (r: State)
    ensures !Enabled(s, a) ==> r == s
    ensures s.crashed ==> r == s
    ensures s.dataLoaded ==>
      r.dataLoaded && r.allTrips == s.allTrips && r.fareCap == s.fareCap
    ensures r.allTrips != s.allTrips || r.fareCap != s.fareCap ==>
      !s.dataLoaded && a.ClickLoad? && a.response.Received? && r.dataLoaded
  {
    if !Enabled(s, a) then s
    else
      match a
      case ClickLoad(resp) => Load(s, resp)
      case SetSearch(q) => Edit(s, s.criteria.(search := q))
      case SetVehicle(v) => Edit(s, s.criteria.(vehicle := v))
      case SetPayment(p) => Edit(s, s.criteria.(payment := p))
      case SetRating(g) => Edit(s, s.criteria.(rating := g))
      case SetMinFare(x) => Edit(s, s.criteria.(minFare := x))
      case SetMaxFare(x) => Edit(s, s.criteria.(maxFare := AtMost(x)))
      case ClickPage(i) => s.(page := i + 1)
      case ClickReset => Reset(s)
  }

  /** The actions applied in order. */
  function Run(s: State, actions: seq<Action>): State
    decreases |actions|
  {
    if actions == [] then s else Run(Step(s, actions[0]), actions[1..])
  }

  /** The rows of the table: the current page of the filtered list once
      data is loaded, or nothing before a load (the table is not rendered)
      or once the component has crashed. */
  function VisibleRows(s: State): seq<Trip>
  {
    if s.crashed || !s.dataLoaded then [] else CurrentPage(s.trips, s.page)
  }

  /** The chart: the projection of the visible rows. */
  function VisibleChart(s: State): ChartData
  {
    FareChartData(VisibleRows(s))
  }

  /** Unless the dashboard crashed, the filter runs over the loaded list
      without throwing and the filtered list is its result. */
  ghost predicate FilteredInSync(s: State)
  {
    !s.crashed ==> RunFilter(s.allTrips, s.criteria) == Kept(s.trips)
  }

  /** The page is 1 or one of the pages of the filtered list. */
  predicate PageInRange(s: State)
  {
    s.page >= 1 && (s.page == 1 || s.page <= TotalPages(|s.trips|))
  }

  /** After a load the ceiling belongs to the loaded list; before it nothing
      is loaded, the criteria are the defaults and nothing has crashed. */
  predicate LoadPhase(s: State)
  {
    && (s.dataLoaded ==> s.fareCap == FareCeiling(s.allTrips))
    && (!s.dataLoaded ==> s.allTrips == [] && s.criteria == Defaults(s.fareCap) && !s.crashed)
  }

  /** What holds of every state the dashboard can reach. */
  ghost predicate Consistent(s: State)
  {
    FilteredInSync(s) && PageInRange(s) && LoadPhase(s)
  }

  lemma InitialConsistent()
    ensures Consistent(Initial())
  {
  }

  /** The first load, successful or not, keeps the invariant: the default
      search is empty, so the refilter cannot throw. */
  lemma LoadConsistent(s: State, response: Response)
    requires Consistent(s) && !s.dataLoaded
    ensures Consistent(Load(s, response))
  {
    match response
    case LoadError =>
    case Received(data) =>
      var r := Load(s, response);
      assert r.criteria.search == "";
      NeverThrowsWithoutNull(data, r.criteria);
      assert r.trips == Filter(data, r.criteria) && r.page == 1;
  }

  /** A criteria setter keeps the invariant, whether it refilters or
      crashes. */
  lemma EditConsistent(s: State, c: Criteria)
    requires Consistent(s) && s.dataLoaded
    ensures Consistent(Edit(s, c))
  {
    if c != s.criteria {
      var r := Edit(s, c);
      match RunFilter(s.allTrips, c)
      case Threw =>
        assert r.crashed && r.page == s.page && r.trips == s.trips;
      case Kept(ts) =>
        assert r.trips == ts && r.page == 1;
    }
  }

  /** Reset keeps the invariant: the default search is empty, so a live
      dashboard stays live on the defaults' filter. */
  lemma ResetConsistent(s: State)
    requires Consistent(s)
    ensures Consistent(Reset(s))
  {
    var r := Reset(s);
    if !s.crashed {
      assert s.trips == Filter(s.allTrips, s.criteria);
      NeverThrowsWithoutNull(s.allTrips, Defaults(s.fareCap));
      assert RunFilter(r.allTrips, r.criteria) == Kept(r.trips);
    }
  }

  /** A page button keeps the invariant: it only offers existing pages. */
  lemma PageClickConsistent(s: State, i: nat)
    requires Consistent(s) && i < TotalPages(|s.trips|)
    ensures Consistent(s.(page := i + 1))
  {
  }

  predicate IsSetter(a: Action)
  {
    a.SetSearch? || a.SetVehicle? || a.SetPayment? || a.SetRating?
    || a.SetMinFare? || a.SetMaxFare?
  }

  lemma SetterStepConsistent(s: State, a: Action)
    requires Consistent(s) && Enabled(s, a) && IsSetter(a)
    ensures Consistent(Step(s, a))
  {
    var c := Step(s, a).criteria;
    assert Step(s, a) == Edit(s, c);
    EditConsistent(s, c);
  }

  lemma ControlStepConsistent(s: State, a: Action)
    requires Consistent(s) && Enabled(s, a) && !IsSetter(a)
    ensures Consistent(Step(s, a))
  {
    match a
    case ClickLoad(resp) =>
      LoadConsistent(s, resp);
    case ClickPage(i) =>
      PageClickConsistent(s, i);
    case ClickReset =>
      ResetConsistent(s);
  }

  /** Every user action, enabled or not, keeps the invariant. */
  lemma StepConsistent(s: State, a: Action)
    requires Consistent(s)
    ensures Consistent(Step(s, a))
  {
    if !Enabled(s, a) {
    } else if IsSetter(a) {
      SetterStepConsistent(s, a);
    } else {
      ControlStepConsistent(s, a);
    }
  }

  /** Every state reachable from the first render is consistent. */
  lemma {:induction false} RunConsistent(s: State, actions: seq<Action>)
    requires Consistent(s)
    ensures Consistent(Run(s, actions))
    decreases |actions|
  {
    if actions != [] {
      StepConsistent(s, actions[0]);
      RunConsistent(Step(s, actions[0]), actions[1..]);
    }
  }

  lemma ReachableConsistent(actions: seq<Action>)
    ensures Consistent(Run(Initial(), actions))
  {
    InitialConsistent();
    RunConsistent(Initial(), actions);
  }

  /** Every enabled change of a criterion either crashes, exactly when the
      filter throws under the new criteria, or puts the view on page 1 of the
      refiltered list; the loaded list and the ceiling stay. */
  lemma CriterionChangeResetsPage(s: State, a: Action)
    requires Consistent(s) && Enabled(s, a)
    requires a.SetSearch? || a.SetVehicle? || a.SetPayment? || a.SetRating?
      || a.SetMinFare? || a.SetMaxFare?
    ensures Step(s, a).crashed <==> RunFilter(s.allTrips, Step(s, a).criteria).Threw?
    ensures !Step(s, a).crashed && Step(s, a).criteria != s.criteria ==> Step(s, a).page == 1
    ensures !Step(s, a).crashed ==> Step(s, a).trips == Filter(s.allTrips, Step(s, a).criteria)
    ensures Step(s, a).allTrips == s.allTrips && Step(s, a).fareCap == s.fareCap
  {
  }

  /** A crash needs a non-empty search over a loaded list in which some trip
      lacks a pickup or a dropoff point. */
  lemma CrashNeedsNullPlace(s: State, a: Action)
    requires Consistent(s) && !s.crashed
    requires Step(s, a).crashed
    ensures a.SetSearch? && a.text != ""
    ensures exists i :: (0 <= i < |s.allTrips|
      && (s.allTrips[i].pickup.Null? || s.allTrips[i].dropoff.Null?))
  {
    var r := Step(s, a);
    if a.ClickLoad? || a.ClickPage? || a.ClickReset? {
      assert false;
    } else {
      assert r.criteria != s.criteria;
      if r.criteria.search == s.criteria.search {
        ThrowsDependsOnSearchOnly(s.allTrips, s.criteria, r.criteria);
      }
      assert RunFilter(s.allTrips, r.criteria).Threw?;
      if r.criteria.search == "" || forall i :: 0 <= i < |s.allTrips| ==>
          s.allTrips[i].pickup.Str? && s.allTrips[i].dropoff.Str? {
        NeverThrowsWithoutNull(s.allTrips, r.criteria);
      }
    }
  }

  /** Typing a search while some loaded trip has no pickup point crashes the
      dashboard: the table and chart disappear and no control is left. */
  lemma NullPickupSearchCrashes(s: State, q: string, i: int)
    requires Consistent(s) && Enabled(s, SetSearch(q))
    requires q != "" && 0 <= i < |s.allTrips| && s.allTrips[i].pickup.Null?
    ensures Step(s, SetSearch(q)).crashed
    ensures VisibleRows(Step(s, SetSearch(q))) == []
    ensures forall a :: !Enabled(Step(s, SetSearch(q)), a)
  {
    var c := s.criteria.(search := q);
    NullPickupThrows(s.allTrips, c, i);
    assert Step(s, SetSearch(q)) == Edit(s, c);
  }

  /** The visible page is never stale: when the filtered list has rows and
      nothing crashed, the table shows some of them, and it never shows more
      than 10. */
  lemma VisiblePageNotStale(s: State)
    requires Consistent(s)
    ensures |VisibleRows(s)| <= PageSize
    ensures !s.crashed && s.trips != [] ==> VisibleRows(s) != []
  {
    PageShape(s.trips, s.page);
  }

  /** Every row on screen is a loaded trip that matches the criteria. */
  lemma VisibleRowsMatch(s: State, t: Trip)
    requires Consistent(s)
    requires t in VisibleRows(s)
    ensures t in s.allTrips && Matches(s.criteria, t)
  {
    PageShape(s.trips, s.page);
  }

  /** The chart has one bar per table row, at most 10, and bar `i` shows the
      date and fare of row `i`. */
  lemma VisibleChartShowsTable(s: State)
    requires Consistent(s)
    ensures |VisibleChart(s).labels| == |VisibleRows(s)| <= PageSize
    ensures forall i :: 0 <= i < |VisibleRows(s)| ==>
      VisibleChart(s).labels[i] == VisibleRows(s)[i].date
      && VisibleChart(s).datasets[0].data[i] == VisibleRows(s)[i].fare
  {
    VisiblePageNotStale(s);
  }

  /** Which controls a consistent dashboard offers: none after a crash; only
      the load button before a load; after it, every filter and the reset
      button, one page button per page, and no load button. */
  lemma ControlsOnScreen(s: State, a: Action)
    requires Consistent(s)
    ensures s.crashed ==> !Enabled(s, a)
    ensures !s.dataLoaded ==> (Enabled(s, a) <==> a.ClickLoad?)
    ensures s.dataLoaded && !s.crashed ==>
      (Enabled(s, a) <==> !a.ClickLoad? && (a.ClickPage? ==> a.index < TotalPages(|s.trips|)))
  {
  }

  /** Page button `i` of a live dashboard shows page `i + 1`: rows `10 * i`
      up to `10 * (i + 1)` of the filtered list, cut to its length, and
      changes nothing else. */
  lemma PageClickShowsPage(s: State, i: nat)
    requires Consistent(s) && !s.crashed && s.dataLoaded && i < TotalPages(|s.trips|)
    ensures Step(s, ClickPage(i)) == s.(page := i + 1)
    ensures VisibleRows(Step(s, ClickPage(i)))
      == s.trips[i * PageSize..Min((i + 1) * PageSize, |s.trips|)]
    ensures VisibleRows(Step(s, ClickPage(i))) != []
  {
    var r := s.(page := i + 1);
    assert Step(s, ClickPage(i)) == r;
    assert VisibleRows(r) == CurrentPage(s.trips, i + 1);
    PageShape(s.trips, i + 1);
    assert (i + 1 - 1) * PageSize == i * PageSize;
  }

  /** After a successful first load of trips with non-negative fares, the
      whole list is shown, starting at page 1. */
  lemma LoadShowsEverything(s: State, data: seq<Trip>)
    requires Consistent(s) && !s.dataLoaded
    requires forall i :: 0 <= i < |data| ==> data[i].fare >= 0.0
    ensures !Step(s, ClickLoad(Received(data))).crashed
    ensures Step(s, ClickLoad(Received(data))).trips == data
    ensures Step(s, ClickLoad(Received(data))).page == 1
  {
    var cap := FareCeiling(data);
    assert Step(s, ClickLoad(Received(data))) == Load(s, Received(data));
    assert s.criteria.(maxFare := cap) == Defaults(cap);
    NeverThrowsWithoutNull(data, Defaults(cap));
    DefaultsKeepEverything(data);
  }

  /** A failed load changes nothing but the status: the dashboard stays
      unloaded and the load button stays available for another try. */
  lemma FailedLoadKeepsState(s: State)
    requires Consistent(s) && !s.dataLoaded
    ensures Step(s, ClickLoad(LoadError)) == s.(status := Failed)
    ensures StatusMessage(Step(s, ClickLoad(LoadError)).status) == "\U{274C} Failed to connect to backend."
    ensures Step(s, ClickLoad(LoadError)).allTrips == []
    ensures VisibleRows(Step(s, ClickLoad(LoadError))) == []
    ensures Enabled(Step(s, ClickLoad(LoadError)), ClickLoad(LoadError))
  {
  }

  /** Unless the dashboard crashed, reset brings back every loaded trip with
      a non-negative fare, on page 1. */
  lemma ResetShowsEverything(s: State)
    requires Consistent(s)
    requires forall i :: 0 <= i < |s.allTrips| ==> s.allTrips[i].fare >= 0.0
    ensures !s.crashed ==> Step(s, ClickReset).trips == s.allTrips
    ensures !s.crashed ==> Step(s, ClickReset).page == 1
  {
    if !s.crashed {
      assert s.trips == Filter(s.allTrips, s.criteria);
      if s.dataLoaded {
        assert Step(s, ClickReset) == Reset(s);
        DefaultsKeepEverything(s.allTrips);
        assert Filter(s.allTrips, Defaults(s.fareCap)) == s.allTrips;
      } else {
        assert Step(s, ClickReset) == s;
        assert s.allTrips == [] && s.trips == [];
      }
    }
  }

  /** Picking a vehicle type no loaded trip has empties the table: no rows,
      no page buttons, page 1, and no crash. */
  lemma UnknownVehicleEmpties(s: State, v: string)
    requires Consistent(s) && Enabled(s, SetVehicle(v)) && v != ""
    requires forall i :: 0 <= i < |s.allTrips| ==> s.allTrips[i].vehicle != v
    ensures !Step(s, SetVehicle(v)).crashed
    ensures Step(s, SetVehicle(v)).trips == []
    ensures TotalPages(|Step(s, SetVehicle(v)).trips|) == 0
    ensures Step(s, SetVehicle(v)).page == 1
    ensures VisibleRows(Step(s, SetVehicle(v))) == []
  {
    var c := s.criteria.(vehicle := v);
    assert Step(s, SetVehicle(v)) == Edit(s, c);
    ThrowsDependsOnSearchOnly(s.allTrips, s.criteria, c);
    FilterDropsNonMatching(s.allTrips, c);
  }

  /** An upper bound below every loaded fare empties the table without a
      crash. */
  lemma MaxFareBelowAllEmpties(s: State, x: real)
    requires Consistent(s) && Enabled(s, SetMaxFare(x))
    requires forall i :: 0 <= i < |s.allTrips| ==> x < s.allTrips[i].fare
    ensures !Step(s, SetMaxFare(x)).crashed
    ensures Step(s, SetMaxFare(x)).trips == []
    ensures VisibleRows(Step(s, SetMaxFare(x))) == []
  {
    var c := s.criteria.(maxFare := AtMost(x));
    assert Step(s, SetMaxFare(x)) == Edit(s, c);
    ThrowsDependsOnSearchOnly(s.allTrips, s.criteria, c);
    FilterDropsNonMatching(s.allTrips, c);
  }
}

=== FILE: fare_cap.dfy ===
/** The fare ceiling computed when trips are loaded:
    `Math.ceil(Math.max(...fares))`. */
module FareCap {
  import opened Trips

  /** `Math.max` of a non-empty list. */
  function MaxOf(xs: seq<real>): (m: real)
    requires xs != []
    ensures m in xs
    ensures forall i :: 0 <= i < |xs| ==> xs[i] <= m
  {
    if |xs| == 1 then xs[0]
    else
      var rest := MaxOf(xs[1..]);
      if xs[0] >= rest then xs[0] else rest
  }

  /** `Math.ceil`: the least integer not below `x`. */
  function Ceil(x: real): (n: int)
    ensures x <= n as real
    ensures (n - 1) as real < x
  {
    if x.Floor as real == x then x.Floor else x.Floor + 1
  }

  /** The ceiling for a loaded list: the maximum fare rounded up, or minus
      infinity when nothing was loaded (`Math.max()` of no arguments). */
  function FareCeiling(trips: seq<Trip>): (r: Ceiling)
    ensures r == MinusInfinity <==> trips == []
    ensures r.AtMost? ==> r.value == r.value.Floor as real
    ensures r.AtMost? ==> forall i :: 0 <= i < |trips| ==> trips[i].fare <= r.value
    ensures r.AtMost? ==> exists i :: 0 <= i < |trips| && r.value - 1.0 < trips[i].fare
  {
    if trips == [] then MinusInfinity
    else
      AtMost(Ceil(MaxOf(Fares(trips))) as real)
  }

  /** With the default criteria for the loaded list's own ceiling, every trip
      with a non-negative fare passes: nothing is hidden after a load or a
      reset. */
  lemma DefaultsKeepEverything(trips: seq<Trip>)
    requires forall i :: 0 <= i < |trips| ==> trips[i].fare >= 0.0
    ensures Filter(trips, Defaults(FareCeiling(trips))) == trips
  {
    var c := Defaults(FareCeiling(trips));
    forall i | 0 <= i < |trips|
      ensures Matches(c, trips[i])
    {
    }
    FilterKeepsMatching(trips, c);
  }
}

=== FILE: pagination.dfy ===
/** The table's pagination: fixed page size, 1-indexed page number, the page
    window taken with `Array.prototype.slice`, and `Math.ceil` page count. */
module Pagination {

  const PageSize: nat := 10

  function Min(a: int, b: int): int { if a <= b then a else b }

  /** How `slice` turns a possibly negative index into a position in a list of
      length `len`: negative indices count back from the end, and the result
      is clamped into `[0, len]`. */
  function Resolve(i: int, len: nat): (k: nat)
    ensures k <= len
  {
    if i < 0 then (if len + i < 0 then 0 else len + i)
    else Min(i, len)
  }

  /** `s.slice(start, end)`: non-negative indices are positions clamped to
      the list, negative ones count back from its end, and an `end` of 0 is
      the front of the list, never its end. Empty when the resolved end is
      not past the resolved start. */
  function Slice<T>(s: seq<T>, start: int, end: int): (r: seq<T>)
    ensures |r| <= |s|
    ensures 0 <= start <= end ==> r == s[Min(start, |s|)..Min(end, |s|)]
    ensures -|s| <= start <= end < 0 ==> r == s[|s| + start..|s| + end]
    ensures end == 0 ==> r == []
  {
    var from := Resolve(start, |s|);
    var to := Resolve(end, |s|);
    if to <= from then [] else s[from..to]
  }

  /** `trips.slice(indexOfFirstTrip, indexOfLastTrip)` for the given page. */
  function CurrentPage<T>(trips: seq<T>, page: int): seq<T>
  {
    var last := page * PageSize;
    var first := last - PageSize;
    Slice(trips, first, last)
  }

  /** `Math.ceil(count / tripsPerPage)`: the fewest pages of 10 that hold
      `count` rows. */
  function TotalPages(count: nat): (n: nat)
    ensures count <= n * PageSize
    ensures n == 0 || (n - 1) * PageSize < count
  {
    (count + PageSize - 1) / PageSize
  }

  /** For a page number from 1 up, the page is the window
      `[(p-1)*10, p*10)` cut down to the list, holds at most 10 rows, is full
      before the last page, and is empty exactly past the last page. */
  lemma PageShape<T>(trips: seq<T>, p: int)
    requires p >= 1
    ensures CurrentPage(trips, p)
      == trips[Min((p - 1) * PageSize, |trips|)..Min(p * PageSize, |trips|)]
    ensures |CurrentPage(trips, p)| <= PageSize
    ensures p < TotalPages(|trips|) ==> |CurrentPage(trips, p)| == PageSize
    ensures CurrentPage(trips, p) == [] <==> p > TotalPages(|trips|)
  {
  }

  /** Page 0 would be `slice(-10, 0)`, which is empty even for a non-empty
      list. The dashboard never reaches page 0; this is why its invariant
      keeps the page number at 1 or above. */
  lemma PageZeroIsEmpty<T>(trips: seq<T>)
    ensures CurrentPage(trips, 0) == []
  {
  }

  /** No rows means no pages, and page 1 is then empty. */
  lemma EmptyListHasNoPages<T>()
    ensures TotalPages(0) == 0
    ensures CurrentPage<T>([], 1) == []
  {
  }

  /** Row `i` of the list is row `i % 10` of page `i / 10 + 1`. */
  lemma PageLocatesRow<T>(trips: seq<T>, i: int)
    requires 0 <= i < |trips|
    ensures i / PageSize + 1 <= TotalPages(|trips|)
    ensures i % PageSize < |CurrentPage(trips, i / PageSize + 1)|
    ensures CurrentPage(trips, i / PageSize + 1)[i % PageSize] == trips[i]
  {
    PageShape(trips, i / PageSize + 1);
  }

  /** Pages `p`, `p+1`, ... up to the last page, concatenated in order. */
  function PagesFrom<T>(trips: seq<T>, p: nat): seq<T>
    requires p >= 1
    decreases TotalPages(|trips|) + 1 - p
  {
    if p > TotalPages(|trips|) then []
    else CurrentPage(trips, p) + PagesFrom(trips, p + 1)
  }

  lemma {:induction false} PagesFromSuffix<T>(trips: seq<T>, p: nat)
    requires 1 <= p <= TotalPages(|trips|) + 1
    ensures PagesFrom(trips, p) == trips[Min((p - 1) * PageSize, |trips|)..]
    decreases TotalPages(|trips|) + 1 - p
  {
    if p <= TotalPages(|trips|) {
      PageShape(trips, p);
      PagesFromSuffix(trips, p + 1);
      var a, b := (p - 1) * PageSize, Min(p * PageSize, |trips|);
      assert trips[a..] == trips[a..b] + trips[b..];
    } else {
      assert (p - 1) * PageSize >= |trips|;
    }
  }

  /** Pages 1 to `TotalPages` concatenated give back the whole list. */
  lemma PagesReconstruct<T>(trips: seq<T>)
    ensures PagesFrom(trips, 1) == trips
  {
    PagesFromSuffix(trips, 1);
  }
}

=== FILE: text.dfy ===
/** String operations the dashboard's filter relies on: the ASCII part of
    `toLowerCase`, `includes` (substring search) and `parseInt` with no radix. */
module Text {

  predicate IsUpper(c: char) { 'A' <= c <= 'Z' }

  /** One character of `toLowerCase`, restricted to the ASCII letters. */
  function LowerChar(c: char): (r: char)
    ensures !IsUpper(r)
    ensures !IsUpper(c) ==> r == c
    ensures IsUpper(c) ==> 'a' <= r <= 'z' && r as int - c as int == 32
  {
    if IsUpper(c) then (c as int + 32) as char else c
  }

  /** `s.toLowerCase()` on ASCII text. */
  function Lower(s: string): (r: string)
    ensures |r| == |s|
    ensures forall i :: 0 <= i < |s| ==> r[i] == LowerChar(s[i])
  {
    if s == [] then [] else [LowerChar(s[0])] + Lower(s[1..])
  }

  lemma LowerIdempotent(s: string)
    ensures Lower(Lower(s)) == Lower(s)
  {
  }

  /** `needle` sits in `hay` starting at index `i`. */
  ghost predicate OccursAt(hay: string, needle: string, i: int)
  {
    0 <= i && i + |needle| <= |hay| && hay[i..i + |needle|] == needle
  }

  /** Reference meaning of "substring": some position where it occurs. */
  ghost predicate IsSubstring(needle: string, hay: string)
  {
    exists i :: OccursAt(hay, needle, i)
  }

  /** `hay.includes(needle)`: scan every start position left to right. */
  function Includes(hay: string, needle: string): bool
    decreases |hay|
  {
    if |needle| > |hay| then false
    else if hay[..|needle|] == needle then true
    else Includes(hay[1..], needle)
  }

  lemma TailSlice(hay: string, i: nat, n: nat)
    requires 1 + i + n <= |hay|
    ensures hay[1..][i..i + n] == hay[i + 1..i + 1 + n]
  {
    var a, b := hay[1..][i..i + n], hay[i + 1..i + 1 + n];
    assert |a| == |b|;
    forall k | 0 <= k < n
      ensures a[k] == b[k]
    {
    }
  }

  /** The scanning search agrees with the positional definition, both ways. */
  lemma {:induction false} IncludesIsSubstring(hay: string, needle: string)
    ensures Includes(hay, needle) <==> IsSubstring(needle, hay)
    decreases |hay|
  {
    if |needle| > |hay| {
    } else if hay[..|needle|] == needle {
      assert OccursAt(hay, needle, 0);
    } else {
      IncludesIsSubstring(hay[1..], needle);
      if Includes(hay[1..], needle) {
        var i :| OccursAt(hay[1..], needle, i);
        TailSlice(hay, i, |needle|);
        assert OccursAt(hay, needle, i + 1);
      }
      if IsSubstring(needle, hay) {
        var i :| OccursAt(hay, needle, i);
        assert i != 0;
        TailSlice(hay, i - 1, |needle|);
        assert OccursAt(hay[1..], needle, i - 1);
      }
    }
  }

  /** The empty string is found in every string, so `search === ''` in front of
      the two `includes` calls never changes the outcome. */
  lemma EmptyIsEverywhere(hay: string)
    ensures Includes(hay, "")
  {
  }

  // ---------------------------------------------------------------------
  // parseInt(s) with no radix argument

  /** A JavaScript number that `parseInt` can produce: an integer or NaN. */
  datatype Parsed = NaN | Num(value: int)

  /** JavaScript's WhiteSpace and LineTerminator code points, which `parseInt`
      skips at the start of its argument. */
  predicate IsJsSpace(c: char)
  {
    var n := c as int;
    n == 0x09 || n == 0x0A || n == 0x0B || n == 0x0C || n == 0x0D || n == 0x20
    || n == 0xA0 || n == 0x1680 || (0x2000 <= n <= 0x200A)
    || n == 0x2028 || n == 0x2029 || n == 0x202F || n == 0x205F
    || n == 0x3000 || n == 0xFEFF
  }

  function TrimStart(s: string): (r: string)
    ensures |r| <= |s| && r == s[|s| - |r|..]
    ensures r == [] || !IsJsSpace(r[0])
    ensures forall i :: 0 <= i < |s| - |r| ==> IsJsSpace(s[i])
  {
    if s != [] && IsJsSpace(s[0]) then TrimStart(s[1..]) else s
  }

  /** Value of a digit character in base 10 or 16, or -1 when it is not one. */
  function DigitValue(c: char, radix: int): (d: int)
    requires radix == 10 || radix == 16
    ensures -1 <= d < radix
  {
    if '0' <= c <= '9' then c as int - '0' as int
    else if radix == 16 && 'a' <= c <= 'f' then c as int - 'a' as int + 10
    else if radix == 16 && 'A' <= c <= 'F' then c as int - 'A' as int + 10
    else -1
  }

  /** Length of the longest prefix of `s` made of digits in `radix`. */
  function DigitRun(s: string, radix: int): (k: nat)
    requires radix == 10 || radix == 16
    ensures k <= |s|
    ensures forall i :: 0 <= i < k ==> DigitValue(s[i], radix) >= 0
    ensures k < |s| ==> DigitValue(s[k], radix) < 0
  {
    if s == [] || DigitValue(s[0], radix) < 0 then 0 else 1 + DigitRun(s[1..], radix)
  }

  lemma {:induction false} DigitRunOfDigits(s: string, radix: int)
    requires radix == 10 || radix == 16
    requires forall i :: 0 <= i < |s| ==> DigitValue(s[i], radix) >= 0
    ensures DigitRun(s, radix) == |s|
  {
    if s != [] {
      DigitRunOfDigits(s[1..], radix);
    }
  }

  /** Positional value of a string of digits, most significant first. */
  function DigitsValue(s: string, radix: int): nat
    requires radix == 10 || radix == 16
    requires forall i :: 0 <= i < |s| ==> DigitValue(s[i], radix) >= 0
  {
    if s == [] then 0
    else DigitsValue(s[..|s| - 1], radix) * radix + DigitValue(s[|s| - 1], radix)
  }

  /** The longest digit run at the start of `body`, read in `radix`; no digits
      at all is NaN. */
  function ParseDigits(body: string, radix: int): (r: Parsed)
    requires radix == 10 || radix == 16
    ensures r.NaN? <==> DigitRun(body, radix) == 0
  {
    var k := DigitRun(body, radix);
    if k == 0 then NaN else Num(DigitsValue(body[..k], radix))
  }

  /** An unsigned numeral: base 16 after a `0x`/`0X` prefix, base 10 otherwise. */
  function ParseMagnitude(u: string): Parsed
  {
    if |u| >= 2 && u[0] == '0' && (u[1] == 'x' || u[1] == 'X') then ParseDigits(u[2..], 16)
    else ParseDigits(u, 10)
  }

  function Negate(p: Parsed): Parsed
  {
    match p
    case NaN => NaN
    case Num(v) => Num(-v)
  }

  /** `parseInt(s)`: skip leading white space, take an optional sign, then read
      an unsigned numeral. */
  function ParseInt(s: string): Parsed
  {
    var t := TrimStart(s);
    if t != [] && t[0] == '-' then Negate(ParseMagnitude(t[1..]))
    else if t != [] && t[0] == '+' then ParseMagnitude(t[1..])
    else ParseMagnitude(t)
  }

  function DigitChar(d: nat): (c: char)
    requires d < 10
    ensures DigitValue(c, 10) == d
  {
    ('0' as int + d) as char
  }

  /** `String(n)` for a non-negative integer: its decimal digits. */
  function DecimalString(n: nat): (s: string)
    ensures s != [] && forall i :: 0 <= i < |s| ==> '0' <= s[i] <= '9'
    ensures s[0] == '0' ==> n == 0
  {
    if n < 10 then [DigitChar(n)] else DecimalString(n / 10) + [DigitChar(n % 10)]
  }

  lemma {:induction false} DecimalDigitsValue(n: nat)
    ensures forall i :: 0 <= i < |DecimalString(n)| ==> DigitValue(DecimalString(n)[i], 10) >= 0
    ensures DigitsValue(DecimalString(n), 10) == n
  {
    var s := DecimalString(n);
    if n >= 10 {
      DecimalDigitsValue(n / 10);
      assert s[..|s| - 1] == DecimalString(n / 10);
    }
  }

  /** A digit string starts with no white space and no sign, and is read in
      base 10 as a whole. */
  lemma ParseDigitString(s: string)
    requires s != [] && forall i :: 0 <= i < |s| ==> '0' <= s[i] <= '9'
    ensures ParseInt(s) == ParseDigits(s, 10)
  {
    assert !IsJsSpace(s[0]);
    assert TrimStart(s) == s;
    assert |s| < 2 || (s[1] != 'x' && s[1] != 'X');
  }

  /** Reading a whole run of digits gives its positional value. */
  lemma ParseAllDigits(s: string, radix: int)
    requires radix == 10 || radix == 16
    requires s != [] && forall i :: 0 <= i < |s| ==> DigitValue(s[i], radix) >= 0
    ensures ParseDigits(s, radix) == Num(DigitsValue(s, radix))
  {
    DigitRunOfDigits(s, radix);
    assert s[..|s|] == s;
  }

  /** Reading back the decimal text of a number gives that number: the rating
      options' values `String(r)` parse to `r`. */
  lemma {:induction false} ParseDecimalString(n: nat)
    ensures ParseInt(DecimalString(n)) == Num(n)
  {
    var s := DecimalString(n);
    DecimalDigitsValue(n);
    ParseDigitString(s);
    ParseAllDigits(s, 10);
  }
}

=== FILE: trips.dfy ===
/** Trip records, the dashboard's filter criteria and the filter itself
    (`applyFilters` in frontend/src/App.js). */
module Trips {
  import opened Text

  /** A string field that may come back as JSON `null`. */
  datatype Nullable = Null | Str(value: string)

  /** One ride as the `/trips` endpoint returns it; `fare` is the parsed value
      of `fare_inr`. The pickup and dropoff points can be `null`: the loader
      turns empty CSV cells into `None` and only drops rows without a fare or
      a rating. */
  datatype Trip = Trip(
    tripId: string,
    userId: string,
    date: string,
    pickup: Nullable,
    dropoff: Nullable,
    distanceKm: real,
    durationMin: real,
    fare: real,
    vehicle: string,
    payment: string,
    rating: int)

  /** An upper fare bound. `MinusInfinity` is what `Math.ceil(Math.max())`
      yields for an empty load; every user-typed bound is a finite number. */
  datatype Ceiling = MinusInfinity | AtMost(value: real) {
    predicate Admits(x: real) {
      AtMost? && x <= value
    }
  }

  /** The filter criteria. An empty `vehicle`, `rating` or `payment` string is
      the wildcard; `rating` is the raw value of the rating drop-down. */
  datatype Criteria = Criteria(
    vehicle: string,
    minFare: real,
    maxFare: Ceiling,
    search: string,
    rating: string,
    payment: string)

  /** The default criteria for a given fare ceiling: everything wild, fares from
      0 up to the ceiling. */
  function Defaults(cap: Ceiling): Criteria
  {
    Criteria("", 0.0, cap, "", "", "")
  }

  predicate MatchVehicle(c: Criteria, t: Trip)
  {
    c.vehicle == "" || t.vehicle == c.vehicle
  }

  predicate MatchFare(c: Criteria, t: Trip)
  {
    t.fare >= c.minFare && c.maxFare.Admits(t.fare)
  }

  predicate MatchRating(c: Criteria, t: Trip)
  {
    c.rating == "" || ParseInt(c.rating) == Num(t.rating)
  }

  predicate MatchPayment(c: Criteria, t: Trip)
  {
    c.payment == "" || t.payment == c.payment
  }

  /** The lower-cased search text occurs in the lower-cased place. */
  predicate FoundIn(c: Criteria, place: Nullable)
    requires place.Str?
  {
    Includes(Lower(place.value), Lower(c.search))
  }

  /** Evaluating the search test on `t` throws a `TypeError`: the search is
      non-empty and the `||` chain reaches `.toLowerCase()` on a `null`
      pickup point, or on a `null` dropoff point after the pickup point did
      not contain the search text. */
  predicate SearchThrows(c: Criteria, t: Trip)
  {
    c.search != ""
    && (t.pickup.Null? || (!FoundIn(c, t.pickup) && t.dropoff.Null?))
  }

  /** The value of the search test when it does not throw. */
  predicate MatchSearch(c: Criteria, t: Trip)
  {
    c.search == ""
    || (t.pickup.Str? && FoundIn(c, t.pickup))
    || (t.dropoff.Str? && FoundIn(c, t.dropoff))
  }

  /** The conjunction `applyFilters` keeps a trip by. */
  predicate Matches(c: Criteria, t: Trip)
  {
    MatchVehicle(c, t) && MatchFare(c, t) && MatchRating(c, t)
    && MatchPayment(c, t) && MatchSearch(c, t)
  }

  /** `allTrips.filter(...)`: the trips that match, in their original order. */
  function Filter(all: seq<Trip>, c: Criteria): (r: seq<Trip>)
    ensures |r| <= |all|
    ensures forall t :: t in r ==> t in all && Matches(c, t)
    ensures forall t :: t in all && Matches(c, t) ==> t in r
  {
    if all == [] then []
    else (if Matches(c, all[0]) then [all[0]] else []) + Filter(all[1..], c)
  }

  /** What `applyFilters` produces: the filtered list, or the exception the
      search test threw on some trip. */
  datatype Outcome = Threw | Kept(trips: seq<Trip>)

  /** `allTrips.filter(...)` including its failure: it throws as soon as the
      search test throws on a trip, and otherwise returns `Filter`. */
  function RunFilter(all: seq<Trip>, c: Criteria): (r: Outcome)
    ensures r.Threw? <==> exists i :: 0 <= i < |all| && SearchThrows(c, all[i])
    ensures r.Kept? ==> r.trips == Filter(all, c)
  {
    if all == [] then Kept([])
    else if SearchThrows(c, all[0]) then Threw
    else
      match RunFilter(all[1..], c)
      case Threw => Threw
      case Kept(rest) => Kept((if Matches(c, all[0]) then [all[0]] else []) + rest)
  }

  /** Whether the filter throws depends on the search text alone. */
  lemma ThrowsDependsOnSearchOnly(all: seq<Trip>, c: Criteria, d: Criteria)
    requires c.search == d.search
    ensures RunFilter(all, c).Threw? <==> RunFilter(all, d).Threw?
  {
    forall i | 0 <= i < |all|
      ensures SearchThrows(c, all[i]) <==> SearchThrows(d, all[i])
    {
    }
  }

  /** With an empty search, or with every pickup and dropoff point present,
      the filter never throws. */
  lemma NeverThrowsWithoutNull(all: seq<Trip>, c: Criteria)
    requires c.search == ""
      || forall i :: 0 <= i < |all| ==> all[i].pickup.Str? && all[i].dropoff.Str?
    ensures RunFilter(all, c) == Kept(Filter(all, c))
  {
  }

  /** A non-empty search over a list holding a trip without a pickup point
      throws. */
  lemma NullPickupThrows(all: seq<Trip>, c: Criteria, i: int)
    requires c.search != "" && 0 <= i < |all| && all[i].pickup.Null?
    ensures RunFilter(all, c) == Threw
  {
    assert SearchThrows(c, all[i]);
  }

  /** The fares of a list of trips, position by position. */
  function Fares(ts: seq<Trip>): (r: seq<real>)
    ensures |r| == |ts|
    ensures forall i :: 0 <= i < |ts| ==> r[i] == ts[i].fare
  {
    if ts == [] then [] else [ts[0].fare] + Fares(ts[1..])
  }

  /** `xs` is `ys` with some elements dropped and the rest in the same order. */
  ghost predicate IsSubsequence<T>(xs: seq<T>, ys: seq<T>)
    decreases |ys|
  {
    if xs == [] then true
    else if ys == [] then false
    else (xs[0] == ys[0] && IsSubsequence(xs[1..], ys[1..])) || IsSubsequence(xs, ys[1..])
  }

  /** No trip is fabricated and relative order is kept. */
  lemma {:induction false} FilterIsSubsequence(all: seq<Trip>, c: Criteria)
    ensures IsSubsequence(Filter(all, c), all)
  {
    if all != [] {
      FilterIsSubsequence(all[1..], c);
      var rest := Filter(all[1..], c);
      if Matches(c, all[0]) {
        assert Filter(all, c) == [all[0]] + rest;
        assert ([all[0]] + rest)[1..] == rest;
      } else {
        assert Filter(all, c) == rest;
        if rest != [] {
          assert IsSubsequence(rest, all[1..]);
        }
      }
    }
  }

  /** Exact contents with multiplicity: a matching trip is kept as many times
      as it occurs, a non-matching one never. */
  lemma {:induction false} FilterCounts(all: seq<Trip>, c: Criteria, t: Trip)
    ensures multiset(Filter(all, c))[t] == if Matches(c, t) then multiset(all)[t] else 0
  {
    if all != [] {
      FilterCounts(all[1..], c, t);
      assert all == [all[0]] + all[1..];
      assert multiset(all) == multiset([all[0]]) + multiset(all[1..]);
    }
  }

  lemma {:induction false} FilterAppend(a: seq<Trip>, b: seq<Trip>, c: Criteria)
    ensures Filter(a + b, c) == Filter(a, c) + Filter(b, c)
  {
    if a != [] {
      FilterAppend(a[1..], b, c);
      var head := if Matches(c, a[0]) then [a[0]] else [];
      assert (a + b)[0] == a[0] && (a + b)[1..] == a[1..] + b;
      assert Filter(a + b, c) == head + Filter(a[1..] + b, c);
      assert Filter(a, c) == head + Filter(a[1..], c);
    } else {
      assert a + b == b;
    }
  }

  /** A list every trip of which matches passes through unchanged. */
  lemma {:induction false} FilterKeepsMatching(all: seq<Trip>, c: Criteria)
    requires forall i :: 0 <= i < |all| ==> Matches(c, all[i])
    ensures Filter(all, c) == all
  {
    if all != [] {
      FilterKeepsMatching(all[1..], c);
    }
  }

  /** A list no trip of which matches filters to nothing. */
  lemma {:induction false} FilterDropsNonMatching(all: seq<Trip>, c: Criteria)
    requires forall i :: 0 <= i < |all| ==> !Matches(c, all[i])
    ensures Filter(all, c) == []
  {
    if all != [] {
      FilterDropsNonMatching(all[1..], c);
    }
  }

  /** Filtering the result again with the same criteria changes nothing. */
  lemma FilterIdempotent(all: seq<Trip>, c: Criteria)
    ensures Filter(Filter(all, c), c) == Filter(all, c)
  {
    var r := Filter(all, c);
    assert forall i :: 0 <= i < |r| ==> r[i] in r;
    FilterKeepsMatching(r, c);
  }

  /** The search test does not depend on the case of the search text. */
  lemma SearchIgnoresCase(c: Criteria, t: Trip)
    ensures MatchSearch(c.(search := Lower(c.search)), t) == MatchSearch(c, t)
  {
    LowerIdempotent(c.search);
  }

  /** The search test is a case-insensitive substring test against the pickup
      or the dropoff point, stated with the positional definition. */
  lemma SearchMeaning(c: Criteria, t: Trip)
    ensures MatchSearch(c, t) <==>
      c.search == ""
      || (t.pickup.Str? && IsSubstring(Lower(c.search), Lower(t.pickup.value)))
      || (t.dropoff.Str? && IsSubstring(Lower(c.search), Lower(t.dropoff.value)))
  {
    if t.pickup.Str? {
      IncludesIsSubstring(Lower(t.pickup.value), Lower(c.search));
    }
    if t.dropoff.Str? {
      IncludesIsSubstring(Lower(t.dropoff.value), Lower(c.search));
    }
  }

  /** The rating drop-down's option `r` (its value is the text `String(r)`)
      keeps exactly the trips rated `r`. */
  lemma RatingOptionSelects(c: Criteria, t: Trip, r: nat)
    requires c.rating == DecimalString(r)
    ensures MatchRating(c, t) <==> t.rating == r
  {
    ParseDecimalString(r);
  }
}
